=== FILE: README.md ===
# Helix backend: a Dafny model of the price and helix analytics

The helix backend runs two cooperating Node processes. The ingestion process (`nebula.js`) follows Binance candle and trade streams for BTCUSDT and ETHUSDT and keeps a cache with two parts: the open price of the current candle for each (symbol, timeframe), and the latest price for each symbol. On every material price move it recomputes, for each of fifteen timeframes, both symbols' percentage deltas from the candle open. It then computes the *helix* value, BTC delta minus ETH delta, and folds it into a running total that may change at most once per timeframe duration. The REST process (`server.js`) schedules candle fetches at timeframe boundaries and validates the symbol and timeframe parameters of its `/db/...` endpoints.

This project models that core as pure functions over immutable values:

- `wrappers.dfy` (`Wrappers`): `Option` and `Result`.
- `catalog.dfy` (`Catalog`): the symbols and the 15-entry timeframe catalogue. It also holds nebula's `getTimeframeMs` suffix parser, with a model of `parseInt`, and server's literal `timeframeToMs` table, with a proof that the parser and the table agree.
- `price_cache.dfy` (`PriceCache`): the open-price and current-price maps, `updateOpenPriceCache`, `updateCurrentPrice` with its 0.01 materiality rule, and `calculateDelta`.
- `analytics.dfy` (`Analytics`): `calculateAllDeltas`, `calculateHelix`, `calculateAllHelix` and the three-way label.
- `accumulator.dfy` (`Accumulator`): the time-gated cumulative total of `storeHelixValue`. It is a transition from the latest stored record to the next one. Multi-reading lemmas cover the "no double counting within a window" rule.
- `activity_log.dfy` (`ActivityLog`): the bounded, newest-first log.
- `ingest.dfy` (`Ingest`): the guards and write order of `handleCandleMessage` and `handleTradeMessage`.
- `schedule.dfy` (`Schedule`): `getNextCandleTime`, the fetch delay of `scheduleTimeframeFetch` and the timer that carries it (with a finding, below), and `fetchCandle`'s choice of candle.
- `endpoints.dfy` (`Endpoints`): symbol and timeframe validation of the `/db/...` handlers, plus a finding (below).

Modelling choices:

- A price is `Missing` (the string is `null`, `undefined` or empty, so JavaScript treats it as falsy), `Garbled` (a truthy string that `parseFloat` reads as NaN) or `Quoted(amount)`. This keeps the code's truthiness checks apart from its NaN checks. Arithmetic is exact over `real`.
- Time is an `int` of epoch milliseconds, passed as a parameter.
- The store's "latest helix record" enters as a value (`Accumulator.Latest`). An exchange response enters as an `Option<seq<C>>`.
- JavaScript's `%` truncates toward zero. It is written out as `Schedule.JsRem`.
- Node's `setTimeout` replaces a delay above 2^31 − 1 ms, or below 1 ms, by 1 ms. `Schedule.TimerDelay` models this.
- With no earlier record, the first helix reading is folded in at once: the total becomes 0 + reading (nebula.js:439-455).

## Model

| member | source | states |
|---|---|---|
| `Catalog.ParseInt` | nebula.js:497 | `parseInt` yields a number iff a digit follows an optional sign; a leading `-` gives a result ≤ 0, otherwise ≥ 0 |
| `Catalog.ParseIntOfDecimal` | nebula.js:497 | `parseInt` reads back the decimal spelling of any natural number, whatever non-digit text follows it |
| `Catalog.TimeframeMs` | nebula.js:495-507 | an empty string or unknown last character gives one minute; NaN (`None`) iff the suffix is a known unit and the prefix has no number; otherwise the duration is a multiple of the unit |
| `Catalog.TimeframeMsOfCount` | nebula.js:495-504 | a count followed by `m`/`h`/`d`/`w`/`M` lasts count × (1 min, 1 h, 1 day, 7 days, 30 days) |
| `Catalog.NamedDurations` | nebula.js:495-507 | "1m"→60000, "1h"→3600000, "1d"→86400000, "1w"→604800000, "1M"→2592000000 |
| `Catalog.TableCoversCatalogue` | server.js:25-50 | server's `timeframeToMs` has an entry for exactly the 15 catalogue timeframes, and every duration is positive |
| `Catalog.ParserAgreesWithTable` | server.js:34-50 | for every catalogue timeframe, nebula's `getTimeframeMs` equals server's `timeframeToMs` entry |
| `Catalog.AllButMonthAtMostAWeek` | server.js:34-50 | every table entry other than "1M" lasts at most one week |
| `Catalog.CatalogueDurationsPositive` | nebula.js:7-13 | every catalogue timeframe parses to a positive duration |
| `PriceCache.InitializeSymbol` | nebula.js:207-212 | the symbol's current price becomes null; open prices and other symbols are unchanged |
| `PriceCache.UpdateOpenPrice` | nebula.js:215-226 | the slot's entry is replaced iff it is absent or its `openTime` differs; the same `openTime` is a no-op; no other entry or current price changes |
| `PriceCache.OpenPriceIdempotent` | nebula.js:221-223 | repeating an update with the same `openTime` but another `open` leaves the cache as the first update left it |
| `PriceCache.NewPeriodReplaces` | nebula.js:221-223 | a different `openTime`, older or newer, always installs the supplied open |
| `PriceCache.UpdateCurrentPrice` | nebula.js:229-241 | the current price is always overwritten; recomputation is triggered iff there was no old price or both parse and differ by more than 0.01 |
| `PriceCache.RepeatedPriceIsQuiet` | nebula.js:230-234 | writing the same present price a second time changes nothing and triggers nothing |
| `PriceCache.Delta` | nebula.js:244-261 | a delta exists iff the open entry exists, both prices parse and the open is non-zero; then delta × open = (current − open) × 100 |
| `PriceCache.DeltaRecoversCurrent` | nebula.js:260 | current = open × (1 + delta / 100) |
| `PriceCache.DeltaSign` | nebula.js:260 | with a positive open, the delta is 0 iff the price is flat and positive iff it rose |
| `Analytics.DeltasOver` | nebula.js:303-312 | a timeframe is a key of a symbol's results iff its delta is non-null, and it maps to that delta |
| `Analytics.AllDeltas` | nebula.js:281-330 | no results unless both BTC and ETH current prices are set; otherwise each table holds exactly the catalogue timeframes with a delta |
| `Analytics.Helix` | nebula.js:333-346 | a helix value exists iff both deltas do, and helix + ethDelta = btcDelta |
| `Analytics.Interpret` | nebula.js:429-431 | "BTC outperforming" iff value > 1, "ETH outperforming" iff value < −1, "Neutral" iff −1 ≤ value ≤ 1 |
| `Analytics.InterpretMirrors` | nebula.js:374-376 | swapping the two instruments swaps the two outperforming labels and keeps "Neutral" |
| `Analytics.AllHelix` | nebula.js:354-403 | no output without delta results; otherwise one row for exactly the catalogue timeframes present in both tables, holding both deltas, their difference and its label |
| `Analytics.Recompute` | nebula.js:406-423 | a pass yields rows iff both current prices are set; then exactly the catalogue timeframes where both deltas exist, each holding those deltas, btcDelta − ethDelta and its label |
| `Analytics.DeltaExample` | nebula.js:253-260 | open 45000 and current 45100 give a delta of exactly 2/9 % (≈ 0.222) |
| `Analytics.EndToEndExample` | nebula.js:406-415 | BTC 100→110 and ETH 100→95 give helix 15, labelled BTC outperforming |
| `Accumulator.Store` | nebula.js:426-469 | with no prior record, the total is the reading and `lastUpdateTime` = now. With no `lastUpdateTime`, or at least one duration elapsed, total = prior (or 0) + reading and `lastUpdateTime` = now. Otherwise total and `lastUpdateTime` are carried over. The reading, deltas, time and label are always the new ones |
| `Accumulator.TwoReadings` | nebula.js:439-457 | from nothing, v1 at t0 then v2 at t1 give total v1 if t1 − t0 < duration, else v1 + v2 |
| `Accumulator.NoFoldWithinWindow` | nebula.js:446-469 | after a fold at t0, any readings before t0 + duration leave the total and `lastUpdateTime` unchanged |
| `Accumulator.SpacedReadingsAllFold` | nebula.js:446-457 | readings at least one duration apart are all folded: the total grows by their sum and `lastUpdateTime` is the last reading's time |
| `Accumulator.PassRecords` | nebula.js:366-371 | a pass appends one record per helix row, built from that timeframe's own latest record; timeframes without a row get none. Each record carries the row's deltas, helix value and label, time = now, and the total and `lastUpdateTime` that `Accumulator.Store`'s gate gives: folded with now, or carried over |
| `ActivityLog.Log` | nebula.js:183-189 | the message goes first, the rest is the old log in order; the length grows by one below 10 and is unchanged at 10 or more, so a log of at most 10 stays at most 10 |
| `ActivityLog.LogHoldsNewestFirst` | nebula.js:183-189 | from an empty log, the log is always the most recent min(n, 10) messages, newest first |
| `Ingest.HandleCandle` | nebula.js:638-687 | a message without `k` changes nothing. Otherwise the open-price rule is applied, then the close becomes the current price, and recomputation is triggered iff that move is material |
| `Ingest.NewCandleDeltaUsesItsOwnPrices` | nebula.js:660-665 | after the first candle of a new period, the slot's delta is that candle's own (close − open) / open × 100 |
| `Ingest.HandleTrade` | nebula.js:690-732 | a trade with a falsy price, quantity, time or id changes nothing. Otherwise its price becomes the current price, open prices are untouched, and recomputation happens iff the move is material |
| `Ingest.LastHandledPriceWins` | nebula.js:707-711 | whichever of a trade and a candle for a symbol is handled last sets its current price |
| `Ingest.ZeroTradeIdDropped` | nebula.js:694-696 | a trade with id 0 is dropped by the truthiness guard |
| `Schedule.JsRem` | server.js:480 | JavaScript's `%` by a positive divisor: for a ≥ 0 it lies in [0, b), for a < 0 in (−b, 0], and a − r is always a multiple of b |
| `Schedule.NextCandleTime` | server.js:469-484 | null iff the timeframe is not in `timeframeToMs`; for now ≥ 0 the result is a multiple of the duration, > now and ≤ now + duration |
| `Schedule.SameBoundaryWithinPeriod` | server.js:476-481 | every instant of a candle period yields the same next boundary |
| `Schedule.FetchDelay` | server.js:487-499 | null for an unknown timeframe. With one clock reading the delay lies in (5000, duration + 5000]. With two readings (the second later) it is at most duration + 5000 and above 5000 minus the gap |
| `Schedule.FetchFiresAfterBoundary` | server.js:495-500 | the requested delay, counted from the second clock reading, ends exactly 5000 ms after the boundary computed from the first; this is before Node's timer clamping (see Findings) |
| `Schedule.TimerDelay` | server.js:503-522 | Node's `setTimeout` waits between 1 and 2^31 − 1 ms; it waits the requested delay iff that lies in this range, otherwise 1 ms |
| `Schedule.FireTimeAsWritten` | server.js:487-522 | as written, the fetch fires after the second clock reading and at most 2^31 − 1 ms later; when the delay fits in one timer it fires 5000 ms after the boundary |
| `Schedule.MonthFetchFiresEarlyAsWritten` | server.js:487-522 | as written, at the epoch the "1M" boundary is thirty days away (beyond the timer limit) and the fetch fires after 1 ms |
| `Schedule.MonthFetchSpinsAsWritten` | server.js:503-522 | as written, whenever the month's fetch is due more than 2^31 − 1 ms ahead, it fires 1 ms later |
| `Schedule.MonthSpinWindowAsWritten` | server.js:487-522 | as written, in the first month period the fetch fires after 1 ms iff fewer than 444521353 ms (≈5.1 days) have passed since the boundary, and on time, 5000 ms after the next boundary, otherwise |
| `Schedule.ChunkedFireTime` | server.js:503-522 | corrected: re-arming timers of at most 2^31 − 1 ms reaches exactly the target instant |
| `Schedule.FireTime` | server.js:487-522 | corrected: for every timeframe, and with one clock reading always, the fetch fires exactly 5000 ms after the next boundary |
| `Schedule.CorrectionKeepsShortTimeframes` | server.js:487-522 | the correction changes no fire time for the fourteen timeframes shorter than a month |
| `Schedule.RequestLimit` | server.js:405 | the limit is 1 or 2, and 2 exactly when a completed candle is wanted |
| `Schedule.SelectCandle` | server.js:415-465 | null for a failed or empty response. Otherwise element n−2 is picked, and marked completed, iff a completed candle was asked for and n ≥ 2; else element n−1 |
| `Schedule.FullPageYieldsFirst` | server.js:405-420 | with a limit of 2 (completed) or 1 (current), a full page yields its first candle, marked completed iff asked for |
| `Endpoints.ToUpper` | server.js:608 | upper-casing keeps the length and maps each character through the ASCII upper-case rule |
| `Endpoints.ToLower` | server.js:609 | lower-casing keeps the length and maps each character through the ASCII lower-case rule |
| `Endpoints.ValidateSymbol` | server.js:645-652 | accepted iff the upper-cased symbol is BTCUSDT or ETHUSDT (the value is that upper-cased form); otherwise 400 "Invalid symbol" |
| `Endpoints.ValidateSymbolIgnoresCase` | server.js:733-739 | "btcusdt" and "EthUsdt" are accepted; "BTC" is rejected |
| `Endpoints.DropTrailingUsdt` | server.js:620 | `replace('usdt', '')` on a string ending in "usdt", with no 'u' before it, removes exactly that suffix |
| `Endpoints.SymbolKey` | server.js:620 | for either instrument, the key followed by "usdt" is the lower-cased symbol |
| `Endpoints.SymbolKeys` | server.js:620 | the collection keys are "btc" and "eth" |
| `Endpoints.RouteCandlesAsWritten` | server.js:602-621 | an unknown symbol gives 400 "Invalid symbol" whatever the timeframe. Then the lower-cased timeframe must be in the catalogue, else 400 "Invalid timeframe". The collection is symbol key + "_" + timeframe |
| `Endpoints.MonthQueryServesMinutes` | server.js:608-617 | as written, a request for "1M" is accepted as "1m" and routed to `btc_1m` |
| `Endpoints.MonthUnreachableAsWritten` | server.js:609-621 | as written, no request is ever routed to the "1M" timeframe |
| `Endpoints.RouteCandles` | server.js:602-621 | corrected validation: same symbol rule, and the timeframe is resolved exactly first, then case-insensitively |
| `Endpoints.EveryTimeframeReachable` | server.js:615-621 | corrected: every catalogue timeframe, the month included, is routed under its own name |
| `Endpoints.CorrectionKeepsAcceptedRequests` | server.js:615-617 | corrected: every request the code accepts is still accepted, with the same route unless it names a catalogue entry exactly |

## Left out

- Upstream WebSocket connections and their fixed 5-second reconnect loops (nebula.js:735-865): network I/O and timers.
- Broadcasting to subscribers (nebula.js:141-180): transport I/O. `Analytics.AllHelix` is the payload before `toFixed` formatting.
- MongoDB schemas, models and writes (`storeDelta`, `storeCandle`, `storeTrade`, `updateClosePrice`, `setupModels`, the insert half of `storeHelixValue`) and server's collection setup: foreign library calls. The latest helix record is an input value.
- Express routing and the DB queries behind the endpoints, the 404/500 responses, axios requests, startup and SIGINT shutdown: I/O.
- The random 10% extra delta pass in `handleTradeMessage` and the 1% trade-storage sampling: nondeterministic or storage-only.
- The in-memory `latestData.prices` write in `handleTradeMessage`: nothing in the core reads it.
- Console tables and `toFixed` strings: presentation only.
- IEEE-754 rounding and `parseFloat`: prices are exact reals, and parsing is abstracted into the `Price` classes.
- Overlapping asynchronous recomputation passes: concurrency. One pass is a sequential function.
- Analytics.Recompute: reads one cache snapshot for the whole pass. The source re-reads the live cache after each `await` (nebula.js:320, nebula.js:371), so a price handled mid-pass can feed later deltas of the same pass.
- Log messages emitted by the handlers and the cache: the log is modelled on its own (`ActivityLog`) and not threaded through the other operations.
- Accumulator.PassRecords: assumes every store read and insert succeeds. In the source `storeHelixValue` swallows store errors in its own catch (nebula.js:488-491), and the helix row is still returned and broadcast. If the `findOne` read (nebula.js:436) or the `create` insert (nebula.js:473) fails, no record is appended, so the next reading of that timeframe reloads an older record. If only the later latest-data upsert (nebula.js:476-486) fails, the record stays appended and only the `latest` view is stale.
- Schedule.SelectCandle: the candle type is opaque, so the third null path of `fetchCandle` is not modelled. When the picked candle's open or close time is not a valid date, `toISOString` throws (server.js:427, server.js:434) and the catch at server.js:461-465 returns null.
- Accumulator.PassRecords: uses one clock reading for the whole pass, whereas `storeHelixValue` reads the clock once per timeframe.
- Catalog.ParseInt: handles only an optional sign and decimal digits. Leading whitespace, the `0x` hexadecimal prefix and precision loss above 2^53 are not modelled.
- Schedule.NextCandleTime: bounds are proved only for now ≥ 0. Keys inherited from the JavaScript object prototype (such as "constructor") are treated as absent, whereas the code would find them truthy.
- Ingest.HandleCandle: assumes the candle's `t` field is present and numeric. A kline without `t` would store an `undefined` openTime.
- Endpoints.ToUpper, Endpoints.ToLower: case folding is ASCII only, unlike JavaScript's full Unicode `toUpperCase`/`toLowerCase`.
- The latest-candle endpoint (server.js:670-682) applies the same two checks as `Endpoints.RouteCandlesAsWritten` and is not modelled separately.

## Findings

| source | as written | input that shows it | evidently intended | confidence | as-written member | corrected member |
|---|---|---|---|---|---|---|
| server.js:609-617 | the timeframe parameter is lower-cased before the catalogue check, so "1M" (month) becomes "1m" (minute) | `GET /db/candles/BTCUSDT/1M` is served from `btc_1m` (`Endpoints.MonthQueryServesMinutes`); no request reaches the month (`Endpoints.MonthUnreachableAsWritten`) | "1M" selects the month collection; every catalogue timeframe is reachable (`Endpoints.EveryTimeframeReachable`) | medium; not executed | `Endpoints.RouteCandlesAsWritten` | `Endpoints.RouteCandles` |
| server.js:487-522 | the whole fetch delay goes to one `setTimeout`; for "1M" it is up to thirty days plus 5 s, beyond Node's limit of 2^31 − 1 ms (about 24.8 days), and Node then waits 1 ms | "1M" scheduled at the epoch: due at 2592005000 ms, fires at 1 ms (`Schedule.MonthFetchFiresEarlyAsWritten`); each fetch reschedules itself, so during the first 444521353 ms (≈5.1 days) of every 30-day period it refires 1 ms after each fetch returns (`Schedule.MonthFetchSpinsAsWritten`, `Schedule.MonthSpinWindowAsWritten`) | the monthly fetch waits until 5 s after the month boundary, as the other timeframes do (`Schedule.FireTime`) | medium; not executed | `Schedule.FireTimeAsWritten` | `Schedule.FireTime` |

=== FILE: accumulator.dfy ===
/**
 * The cumulative helix accumulator of `storeHelixValue` (nebula.js), as a pure
 * transition from the latest stored record of a timeframe, the clock reading
 * and the new helix value to the record that is appended next. The store read
 * and write are left to the caller: the latest record comes in as a value.
 */
module Accumulator {
  import opened Wrappers
  import opened Catalog
  import opened PriceCache
  import opened Analytics

  /** What the transition reads from the latest stored record; either field may be unset. */
  datatype Latest = Latest(cumulativeHelixValue: Option<real>, lastUpdateTime: Option<int>)

  /** The record appended to the timeframe's helix series. */
  datatype HelixRecord = HelixRecord(
    timeframe: Timeframe,
    btcDelta: real,
    ethDelta: real,
    helixValue: real,
    cumulativeHelixValue: real,
    time: int,
    interpretation: Interpretation,
    lastUpdateTime: int)

  /**
   * Whether the new reading is folded into the running total: there is no
   * prior record, the prior record has no `lastUpdateTime`, or at least one
   * timeframe duration has elapsed since it. A NaN duration compares false.
   */
  predicate ShouldFold(latest: Option<Latest>, tf: Timeframe, now: int) {
    || latest.None?
    || latest.value.lastUpdateTime.None?
    || (TimeframeMs(tf).Some? && now - latest.value.lastUpdateTime.value >= TimeframeMs(tf).value)
  }

  /** The prior running total; an unset total counts as zero. */
  function PriorTotal(latest: Option<Latest>): real {
    if latest.None? then 0.0 else latest.value.cumulativeHelixValue.GetOr(0.0)
  }

  /**
   * The record `storeHelixValue` builds. The reading, deltas, time and label
   * always describe the new reading; only the running total and its
   * `lastUpdateTime` are gated.
   */
  function Store(latest: Option<Latest>, now: int, tf: Timeframe, btcDelta: real, ethDelta: real, helixValue: real): (r: HelixRecord)
    ensures r.timeframe == tf && r.btcDelta == btcDelta && r.ethDelta == ethDelta
    ensures r.helixValue == helixValue && r.time == now && r.interpretation == Interpret(helixValue)
    ensures latest.None? ==> r.cumulativeHelixValue == helixValue && r.lastUpdateTime == now
    ensures latest.Some? && latest.value.lastUpdateTime.None? ==>
              r.cumulativeHelixValue == latest.value.cumulativeHelixValue.GetOr(0.0) + helixValue &&
              r.lastUpdateTime == now
    ensures latest.Some? && latest.value.lastUpdateTime.Some? && TimeframeMs(tf).Some? ==>
              var elapsed := now - latest.value.lastUpdateTime.value;
              (elapsed >= TimeframeMs(tf).value ==>
                 r.cumulativeHelixValue == latest.value.cumulativeHelixValue.GetOr(0.0) + helixValue &&
                 r.lastUpdateTime == now) &&
              (elapsed < TimeframeMs(tf).value ==>
                 r.cumulativeHelixValue == latest.value.cumulativeHelixValue.GetOr(0.0) &&
                 r.lastUpdateTime == latest.value.lastUpdateTime.value)
  {
    var fold := ShouldFold(latest, tf, now);
    var total := if fold then PriorTotal(latest) + helixValue else PriorTotal(latest);
    var last := if fold then now
                else if latest.Some? && latest.value.lastUpdateTime.Some? then latest.value.lastUpdateTime.value
                else now;
    HelixRecord(tf, btcDelta, ethDelta, helixValue, total, now, Interpret(helixValue), last)
  }

  /** The view of a stored record that the next transition reads back. */
  function Reload(r: HelixRecord): Latest {
    Latest(Some(r.cumulativeHelixValue), Some(r.lastUpdateTime))
  }

  /** One reading of a timeframe's helix value at a clock time. */
  datatype Reading = Reading(now: int, helixValue: real)

  /** Feeds readings one after another, each transition reading back the record the previous one stored. */
  function Replay(latest: Option<Latest>, tf: Timeframe, readings: seq<Reading>): Option<Latest>
    decreases |readings|
  {
    if |readings| == 0 then latest
    else
      var r := Store(latest, readings[0].now, tf, 0.0, 0.0, readings[0].helixValue);
      Replay(Some(Reload(r)), tf, readings[1..])
  }

  /**
   * Two readings from nothing: the first is always folded; the second is
   * folded only when a full timeframe has elapsed since the first.
   */
  lemma TwoReadings(tf: Timeframe, d: int, t0: int, v1: real, t1: int, v2: real)
    requires TimeframeMs(tf) == Some(d)
    ensures var s := Replay(None, tf, [Reading(t0, v1), Reading(t1, v2)]);
            s.Some? &&
            (t1 - t0 < d ==> s.value == Latest(Some(v1), Some(t0))) &&
            (t1 - t0 >= d ==> s.value == Latest(Some(v1 + v2), Some(t1)))
  {
    var readings := [Reading(t0, v1), Reading(t1, v2)];
    var first := Latest(Some(v1), Some(t0));
    assert Reload(Store(None, t0, tf, 0.0, 0.0, v1)) == first;
    assert readings[1..] == [Reading(t1, v2)];
    assert Replay(None, tf, readings) == Replay(Some(first), tf, [Reading(t1, v2)]);
    var second := Reload(Store(Some(first), t1, tf, 0.0, 0.0, v2));
    assert [Reading(t1, v2)][1..] == [];
    assert Replay(Some(first), tf, [Reading(t1, v2)]) == Some(second);
    if t1 - t0 < d {
      assert second == first;
    } else {
      assert second == Latest(Some(v1 + v2), Some(t1));
    }
  }

  /**
   * No double counting within a window: once the total was last folded at
   * `t0`, any run of readings that all fall before `t0 + d` leaves the total
   * and its time untouched, whatever their values.
   */
  lemma {:induction false} NoFoldWithinWindow(tf: Timeframe, d: int, total: real, t0: int, readings: seq<Reading>)
    requires TimeframeMs(tf) == Some(d)
    requires forall i :: 0 <= i < |readings| ==> readings[i].now < t0 + d
    ensures Replay(Some(Latest(Some(total), Some(t0))), tf, readings) == Some(Latest(Some(total), Some(t0)))
    decreases |readings|
  {
    if |readings| > 0 {
      var r := Store(Some(Latest(Some(total), Some(t0))), readings[0].now, tf, 0.0, 0.0, readings[0].helixValue);
      assert Reload(r) == Latest(Some(total), Some(t0));
      NoFoldWithinWindow(tf, d, total, t0, readings[1..]);
    }
  }

  /**
   * Readings spaced at least a timeframe apart are all folded: the total
   * grows by the sum of their values and its time is the last reading's.
   */
  lemma {:induction false} SpacedReadingsAllFold(tf: Timeframe, d: int, total: real, t0: int, readings: seq<Reading>)
    requires TimeframeMs(tf) == Some(d)
    requires |readings| > 0 ==> readings[0].now - t0 >= d
    requires forall i :: 0 < i < |readings| ==> readings[i].now - readings[i - 1].now >= d
    ensures Replay(Some(Latest(Some(total), Some(t0))), tf, readings) ==
              Some(Latest(Some(total + Sum(readings)), Some(if |readings| == 0 then t0 else readings[|readings| - 1].now)))
    decreases |readings|
  {
    if |readings| > 0 {
      var t := readings[0].now;
      var v := readings[0].helixValue;
      var r := Store(Some(Latest(Some(total), Some(t0))), t, tf, 0.0, 0.0, v);
      assert Reload(r) == Latest(Some(total + v), Some(t));
      var rest := readings[1..];
      assert forall i :: 0 < i < |rest| ==> rest[i].now - rest[i - 1].now >= d by {
        forall i | 0 < i < |rest| ensures rest[i].now - rest[i - 1].now >= d {
          assert rest[i] == readings[i + 1] && rest[i - 1] == readings[i];
        }
      }
      assert |rest| > 0 ==> rest[0].now - t >= d by {
        if |rest| > 0 { assert rest[0] == readings[1]; }
      }
      SpacedReadingsAllFold(tf, d, total + v, t, rest);
      SumCons(readings);
      if |rest| > 0 {
        assert rest[|rest| - 1] == readings[|readings| - 1];
      }
    }
  }

  /** The sum of the values of a run of readings. */
  function Sum(readings: seq<Reading>): real
    decreases |readings|
  {
    if |readings| == 0 then 0.0 else Sum(readings[..|readings| - 1]) + readings[|readings| - 1].helixValue
  }

  lemma {:induction false} SumCons(readings: seq<Reading>)
    requires |readings| > 0
    ensures Sum(readings) == readings[0].helixValue + Sum(readings[1..])
    decreases |readings|
  {
    if |readings| > 1 {
      var init := readings[..|readings| - 1];
      SumCons(init);
      assert init[1..] == readings[1..][..|readings[1..]| - 1];
    }
  }

  /** The latest stored record of a timeframe, if any. */
  function LatestOf(stored: map<Timeframe, Latest>, tf: Timeframe): Option<Latest> {
    if tf in stored then Some(stored[tf]) else None
  }

  /**
   * The records one recomputation pass appends: one per helix row of the
   * pass, each built from that timeframe's own latest record; a timeframe
   * without a row (missing data) gets no record, so its series is untouched.
   */
  function PassRecords(c: Cache, stored: map<Timeframe, Latest>, now: int): (r: Option<map<Timeframe, HelixRecord>>)
    ensures r.Some? <==> Recompute(c).Some?
    ensures r.Some? ==> r.value.Keys == Recompute(c).value.Keys
    ensures r.Some? ==> forall tf :: tf in r.value ==>
              r.value[tf].timeframe == tf &&
              r.value[tf].time == now &&
              r.value[tf].btcDelta == Recompute(c).value[tf].btcDelta &&
              r.value[tf].ethDelta == Recompute(c).value[tf].ethDelta &&
              r.value[tf].helixValue == Recompute(c).value[tf].helixValue &&
              r.value[tf].interpretation == Recompute(c).value[tf].interpretation &&
              r.value[tf].cumulativeHelixValue ==
                (if ShouldFold(LatestOf(stored, tf), tf, now) then PriorTotal(LatestOf(stored, tf)) + r.value[tf].helixValue
                 else PriorTotal(LatestOf(stored, tf))) &&
              r.value[tf].lastUpdateTime ==
                (if ShouldFold(LatestOf(stored, tf), tf, now) then now
                 else LatestOf(stored, tf).value.lastUpdateTime.value)
  {
    match Recompute(c)
    case None => None
    case Some(rows) =>
      Some(map tf | tf in rows ::
        Store(LatestOf(stored, tf), now, tf, rows[tf].btcDelta, rows[tf].ethDelta, rows[tf].helixValue))
  }
}

=== FILE: activity_log.dfy ===
/** The bounded, newest-first activity log of the ingestion process (`logActivity`, nebula.js). */
module ActivityLog {

  /** The log keeps at most this many messages. */
  const MaxLogEntries: nat := 10

  /**
   * `logActivity`: the message goes to the front; if that makes the log too
   * long, the oldest message is dropped.
   */
  function Log(log: seq<string>, message: string): (r: seq<string>)
    ensures |log| <= MaxLogEntries ==> |r| <= MaxLogEntries
    ensures 0 < |r| <= |log| + 1 && r[0] == message
    ensures r[1..] == log[..|r| - 1]
    ensures |r| == if |log| < MaxLogEntries then |log| + 1 else |log|
  {
    var pushed := [message] + log;
    if |pushed| > MaxLogEntries then pushed[..|pushed| - 1] else pushed
  }

  /** Logs `messages` in order, oldest first. */
  function LogAll(log: seq<string>, messages: seq<string>): seq<string>
    decreases |messages|
  {
    if |messages| == 0 then log
    else Log(LogAll(log, messages[..|messages| - 1]), messages[|messages| - 1])
  }

  function Reverse(s: seq<string>): (r: seq<string>)
    ensures |r| == |s|
    ensures forall i :: 0 <= i < |s| ==> r[i] == s[|s| - 1 - i]
  {
    if |s| == 0 then [] else [s[|s| - 1]] + Reverse(s[..|s| - 1])
  }

  function Min(a: nat, b: nat): nat {
    if a < b then a else b
  }

  /**
   * Starting from an empty log, the log always holds the most recent
   * messages, newest first, and no more than `MaxLogEntries` of them.
   */
  lemma {:induction false} LogHoldsNewestFirst(messages: seq<string>)
    ensures LogAll([], messages) == Reverse(messages)[..Min(|messages|, MaxLogEntries)]
    decreases |messages|
  {
    if |messages| > 0 {
      var init := messages[..|messages| - 1];
      var last := messages[|messages| - 1];
      LogHoldsNewestFirst(init);
      var before := Reverse(init)[..Min(|init|, MaxLogEntries)];
      assert LogAll([], messages) == Log(before, last);
      var want := Reverse(messages)[..Min(|messages|, MaxLogEntries)];
      var got := Log(before, last);
      assert |got| == |want|;
      forall i | 0 <= i < |got|
        ensures got[i] == want[i]
      {
        if i > 0 {
          assert got[i] == got[1..][i - 1];
        }
      }
    }
  }
}

=== FILE: analytics.dfy ===
/**
 * One recomputation pass of the ingestion process (nebula.js): every delta of
 * both instruments over the catalogue, then the helix value (BTC delta minus
 * ETH delta) of every timeframe where both deltas exist, with its label.
 */
module Analytics {
  import opened Wrappers
  import opened Catalog
  import opened PriceCache

  /** The per-symbol delta tables of one pass, keyed by timeframe. */
  datatype DeltaResults = DeltaResults(btc: map<Timeframe, real>, eth: map<Timeframe, real>)

  /**
   * The deltas of `symbol` over the timeframes `tfs`: a timeframe is a key
   * exactly when its delta is available, and maps to that delta.
   */
  function DeltasOver(c: Cache, symbol: Symbol, tfs: seq<Timeframe>): (r: map<Timeframe, real>)
    ensures forall tf :: tf in r <==> tf in tfs && Delta(c, symbol, tf).Some?
    ensures forall tf :: tf in r ==> r[tf] == Delta(c, symbol, tf).value
  {
    if |tfs| == 0 then map[]
    else
      var rest := DeltasOver(c, symbol, tfs[1..]);
      var d := Delta(c, symbol, tfs[0]);
      if d.Some? then rest[tfs[0] := d.value] else rest
  }

  /**
   * `calculateAllDeltas`: skipped (`None`) unless both instruments have a
   * current price; otherwise each symbol's table holds exactly the catalogue
   * timeframes whose delta is available.
   */
  function AllDeltas(c: Cache): (r: Option<DeltaResults>)
    ensures r.None? <==> CurrentPrice(c, Btc).Missing? || CurrentPrice(c, Eth).Missing?
    ensures r.Some? ==> forall tf ::
              (tf in r.value.btc <==> tf in Timeframes && Delta(c, Btc, tf).Some?) &&
              (tf in r.value.eth <==> tf in Timeframes && Delta(c, Eth, tf).Some?)
    ensures r.Some? ==> forall tf ::
              (tf in r.value.btc ==> r.value.btc[tf] == Delta(c, Btc, tf).value) &&
              (tf in r.value.eth ==> r.value.eth[tf] == Delta(c, Eth, tf).value)
  {
    if CurrentPrice(c, Btc).Missing? || CurrentPrice(c, Eth).Missing? then None
    else Some(DeltaResults(DeltasOver(c, Btc, Timeframes), DeltasOver(c, Eth, Timeframes)))
  }

  /** The three-way reading of a helix value. */
  datatype Interpretation = BtcOutperforming | EthOutperforming | Neutral

  /** The label of a helix value: above 1 favours BTC, below -1 favours ETH, otherwise neutral. */
  function Interpret(helixValue: real): (r: Interpretation)
    ensures r == BtcOutperforming <==> helixValue > 1.0
    ensures r == EthOutperforming <==> helixValue < -1.0
    ensures r == Neutral <==> -1.0 <= helixValue <= 1.0
  {
    if helixValue > 1.0 then BtcOutperforming
    else if helixValue < -1.0 then EthOutperforming
    else Neutral
  }

  /** Swapping the roles of the two instruments negates the helix value and mirrors the label. */
  lemma InterpretMirrors(btcDelta: real, ethDelta: real)
    ensures Interpret(ethDelta - btcDelta) ==
              match Interpret(btcDelta - ethDelta)
              case BtcOutperforming => EthOutperforming
              case EthOutperforming => BtcOutperforming
              case Neutral => Neutral
  {
  }

  /**
   * `calculateHelix`: no value when either delta is missing; otherwise the
   * value that, added to the ETH delta, gives the BTC delta.
   */
  function Helix(btcDelta: Option<real>, ethDelta: Option<real>): (r: Option<real>)
    ensures r.Some? <==> btcDelta.Some? && ethDelta.Some?
    ensures r.Some? ==> r.value + ethDelta.value == btcDelta.value
  {
    if btcDelta.None? || ethDelta.None? then None else Some(btcDelta.value - ethDelta.value)
  }

  /** One row of the broadcast snapshot (before `toFixed` formatting). */
  datatype HelixEntry = HelixEntry(
    timeframe: Timeframe,
    btcDelta: real,
    ethDelta: real,
    helixValue: real,
    interpretation: Interpretation)

  /** The row for a timeframe where both deltas exist. */
  function Entry(tf: Timeframe, btcDelta: real, ethDelta: real): HelixEntry {
    var v := Helix(Some(btcDelta), Some(ethDelta)).value;
    HelixEntry(tf, btcDelta, ethDelta, v, Interpret(v))
  }

  /**
   * `calculateAllHelix`: skipped when there are no delta results; otherwise a
   * row for exactly those catalogue timeframes present in both delta tables.
   */
  function AllHelix(deltas: Option<DeltaResults>): (r: Option<map<Timeframe, HelixEntry>>)
    ensures r.Some? <==> deltas.Some?
    ensures r.Some? ==> forall tf ::
              tf in r.value <==> tf in Timeframes && tf in deltas.value.btc && tf in deltas.value.eth
    ensures r.Some? ==> forall tf :: tf in r.value ==>
              r.value[tf].timeframe == tf &&
              r.value[tf].btcDelta == deltas.value.btc[tf] &&
              r.value[tf].ethDelta == deltas.value.eth[tf] &&
              r.value[tf].helixValue + r.value[tf].ethDelta == r.value[tf].btcDelta &&
              r.value[tf].interpretation == Interpret(r.value[tf].helixValue)
  {
    match deltas
    case None => None
    case Some(d) =>
      Some(map tf | tf in Timeframes && tf in d.btc && tf in d.eth :: Entry(tf, d.btc[tf], d.eth[tf]))
  }

  /**
   * `performSynchronizedCalculations` over one cache snapshot: the deltas,
   * then the helix rows. It yields rows only when both instruments have a
   * current price, and then exactly for the catalogue timeframes where both
   * deltas exist.
   */
  function Recompute(c: Cache): (r: Option<map<Timeframe, HelixEntry>>)
    ensures r.Some? <==> !CurrentPrice(c, Btc).Missing? && !CurrentPrice(c, Eth).Missing?
    ensures r.Some? ==> forall tf ::
              tf in r.value <==> tf in Timeframes && Delta(c, Btc, tf).Some? && Delta(c, Eth, tf).Some?
    ensures r.Some? ==> forall tf :: tf in r.value ==>
              r.value[tf].btcDelta == Delta(c, Btc, tf).value &&
              r.value[tf].ethDelta == Delta(c, Eth, tf).value &&
              r.value[tf].helixValue == Delta(c, Btc, tf).value - Delta(c, Eth, tf).value &&
              r.value[tf].interpretation == Interpret(r.value[tf].helixValue)
  {
    AllHelix(AllDeltas(c))
  }

  /** A move from 45000 to 45100 is a delta of 2/9 percent (about 0.222). */
  lemma DeltaExample()
    ensures var c := Cache(map[Slot(Btc, "1h") := OpenEntry(Quoted(45000.0), 0)], map[Btc := Quoted(45100.0)]);
            Delta(c, Btc, "1h") == Some(2.0 / 9.0)
  {
  }

  /**
   * End to end: BTC 100 → 110 (+10%) and ETH 100 → 95 (−5%) on one timeframe
   * give a helix value of 15, read as BTC outperforming.
   */
  lemma EndToEndExample(tf: Timeframe)
    requires tf in Timeframes
    ensures var c := Cache(
              map[Slot(Btc, tf) := OpenEntry(Quoted(100.0), 0), Slot(Eth, tf) := OpenEntry(Quoted(100.0), 0)],
              map[Btc := Quoted(110.0), Eth := Quoted(95.0)]);
            Recompute(c).Some? && tf in Recompute(c).value &&
            Recompute(c).value[tf].helixValue == 15.0 &&
            Recompute(c).value[tf].interpretation == BtcOutperforming
  {
    var c := Cache(
      map[Slot(Btc, tf) := OpenEntry(Quoted(100.0), 0), Slot(Eth, tf) := OpenEntry(Quoted(100.0), 0)],
      map[Btc := Quoted(110.0), Eth := Quoted(95.0)]);
    assert Delta(c, Btc, tf) == Some(10.0);
    assert Delta(c, Eth, tf) == Some(-5.0);
  }
}

=== FILE: catalog.dfy ===
/**
 * The fixed configuration shared by the ingestion process (nebula.js) and the
 * REST/scheduling process (server.js): the two instruments, the fifteen
 * timeframes, nebula's suffix parser `getTimeframeMs` and server's literal
 * `timeframeToMs` table.
 */
module Catalog {
  import opened Wrappers

  type Symbol = string
  type Timeframe = string

  const Btc: Symbol := "BTCUSDT"
  const Eth: Symbol := "ETHUSDT"

  /** The instruments, in the order both processes iterate them. */
  const Symbols: seq<Symbol> := [Btc, Eth]

  /** The timeframe catalogue, in the order both processes iterate it. */
  const Timeframes: seq<Timeframe> :=
    ["1m", "3m", "5m", "15m", "30m", "1h", "2h", "4h", "6h", "8h", "12h", "1d", "3d", "1w", "1M"]

  const MinuteMs: int := 60 * 1000
  const HourMs: int := 60 * MinuteMs
  const DayMs: int := 24 * HourMs
  const WeekMs: int := 7 * DayMs
  /** A month is approximated as thirty days. */
  const MonthMs: int := 30 * DayMs

  // ---------------------------------------------------------------------------
  // parseInt, restricted to the decimal forms a timeframe prefix can take
  // ---------------------------------------------------------------------------

  predicate IsDigit(c: char) {
    '0' <= c <= '9'
  }

  function DigitValue(c: char): (d: nat)
    requires IsDigit(c)
    ensures d < 10
  {
    (c as int) - ('0' as int)
  }

  /** Length of the run of decimal digits that starts `s`. */
  function DigitRun(s: string): (n: nat)
    ensures n <= |s|
    ensures forall i :: 0 <= i < n ==> IsDigit(s[i])
    ensures n < |s| ==> !IsDigit(s[n])
  {
    if |s| > 0 && IsDigit(s[0]) then 1 + DigitRun(s[1..]) else 0
  }

  /** The number a string of decimal digits denotes. */
  function DigitsValue(s: string): nat
    requires forall i :: 0 <= i < |s| ==> IsDigit(s[i])
  {
    if |s| == 0 then 0 else 10 * DigitsValue(s[..|s| - 1]) + DigitValue(s[|s| - 1])
  }

  /**
   * JavaScript's `parseInt` on the forms used here: an optional sign, then the
   * longest run of decimal digits; anything after the run is ignored, and no
   * digit at all gives NaN, rendered as `None`.
   */
  function ParseInt(s: string): (r: Option<int>)
    ensures r.Some? <==>
              (|s| > 0 && IsDigit(s[0])) || (|s| > 1 && (s[0] == '-' || s[0] == '+') && IsDigit(s[1]))
    ensures r.Some? && |s| > 0 && s[0] == '-' ==> r.value <= 0
    ensures r.Some? && (|s| == 0 || s[0] != '-') ==> r.value >= 0
  {
    var negative := |s| > 0 && s[0] == '-';
    var body := if |s| > 0 && (s[0] == '-' || s[0] == '+') then s[1..] else s;
    var n := DigitRun(body);
    if n == 0 then None
    else if negative then Some(-(DigitsValue(body[..n]) as int))
    else Some(DigitsValue(body[..n]))
  }

  /** The canonical decimal spelling of a natural number. */
  function DecimalString(k: nat): (s: string)
    ensures |s| > 0
    ensures forall i :: 0 <= i < |s| ==> IsDigit(s[i])
  {
    var last := ['0' + ((k % 10) as char)];
    if k < 10 then last else DecimalString(k / 10) + last
  }

  lemma {:induction false} DigitsValueOfDecimal(k: nat)
    ensures DigitsValue(DecimalString(k)) == k
    decreases k
  {
    var s := DecimalString(k);
    if k >= 10 {
      DigitsValueOfDecimal(k / 10);
      assert s[..|s| - 1] == DecimalString(k / 10);
    }
  }

  /** `parseInt` reads back the decimal spelling of every natural number, whatever follows it. */
  lemma ParseIntOfDecimal(k: nat, rest: string)
    requires |rest| == 0 || !IsDigit(rest[0])
    ensures ParseInt(DecimalString(k) + rest) == Some(k)
  {
    var d := DecimalString(k);
    var s := d + rest;
    assert IsDigit(s[0]);
    assert forall i :: 0 <= i < |d| ==> s[i] == d[i];
    assert |rest| > 0 ==> s[|d|] == rest[0];
    assert DigitRun(s) == |d|;
    assert s[..|d|] == d;
    DigitsValueOfDecimal(k);
  }

  // ---------------------------------------------------------------------------
  // nebula.js getTimeframeMs
  // ---------------------------------------------------------------------------

  /** Milliseconds per unit suffix; `None` for a suffix `getTimeframeMs` does not know. */
  function UnitMs(u: char): (r: Option<int>)
    ensures r.Some? ==> r.value > 0
  {
    match u
    case 'm' => Some(MinuteMs)
    case 'h' => Some(HourMs)
    case 'd' => Some(DayMs)
    case 'w' => Some(WeekMs)
    case 'M' => Some(MonthMs)
    case _ => None
  }

  /**
   * `getTimeframeMs`: the last character picks the unit, the rest is read by
   * `parseInt` and multiplied by it; an unknown (or absent) suffix falls back
   * to one minute. A known suffix after an unreadable prefix gives NaN (`None`).
   */
  function TimeframeMs(tf: Timeframe): (r: Option<int>)
    ensures |tf| == 0 || UnitMs(tf[|tf| - 1]).None? ==> r == Some(MinuteMs)
    ensures r.None? <==> |tf| > 0 && UnitMs(tf[|tf| - 1]).Some? && ParseInt(tf[..|tf| - 1]).None?
    ensures r.Some? && |tf| > 0 && UnitMs(tf[|tf| - 1]).Some? ==> r.value % UnitMs(tf[|tf| - 1]).value == 0
  {
    if |tf| == 0 then Some(MinuteMs)
    else
      match UnitMs(tf[|tf| - 1])
      case None => Some(MinuteMs)
      case Some(unit) =>
        match ParseInt(tf[..|tf| - 1])
        case None => None
        case Some(k) => MultipleHasNoRemainder(k, unit); Some(k * unit)
  }

  /** A multiple of `m` leaves no remainder. */
  lemma MultipleHasNoRemainder(q: int, m: int)
    requires m > 0
    ensures (q * m) % m == 0
  {
    var x := q * m;
    var k := q - x / m;
    assert x == m * (x / m) + x % m;
    assert x % m == m * k;
  }

  /** A count followed by a known unit suffix denotes count × unit. */
  lemma TimeframeMsOfCount(k: nat, u: char)
    requires UnitMs(u).Some?
    ensures TimeframeMs(DecimalString(k) + [u]) == Some(k * UnitMs(u).value)
  {
    var tf := DecimalString(k) + [u];
    assert tf[..|tf| - 1] == DecimalString(k) + [];
    ParseIntOfDecimal(k, []);
  }

  // ---------------------------------------------------------------------------
  // server.js timeframeToMs
  // ---------------------------------------------------------------------------

  /** server.js's literal table of timeframe durations. */
  const TimeframeToMs: map<Timeframe, int> := map[
    "1m" := MinuteMs, "3m" := 3 * MinuteMs, "5m" := 5 * MinuteMs,
    "15m" := 15 * MinuteMs, "30m" := 30 * MinuteMs,
    "1h" := HourMs, "2h" := 2 * HourMs, "4h" := 4 * HourMs, "6h" := 6 * HourMs,
    "8h" := 8 * HourMs, "12h" := 12 * HourMs,
    "1d" := DayMs, "3d" := 3 * DayMs,
    "1w" := WeekMs,
    "1M" := MonthMs
  ]

  /** The table covers exactly the catalogue, and every duration in it is positive. */
  lemma TableCoversCatalogue()
    ensures TimeframeToMs.Keys == set tf | tf in Timeframes
    ensures forall tf :: tf in TimeframeToMs ==> TimeframeToMs[tf] > 0
  {
  }

  /** Every timeframe but the month lasts at most a week. */
  lemma AllButMonthAtMostAWeek()
    ensures forall tf :: tf in TimeframeToMs && tf != "1M" ==> TimeframeToMs[tf] <= WeekMs
  {
    TableCoversCatalogue();
    forall tf | tf in TimeframeToMs && tf != "1M"
      ensures TimeframeToMs[tf] <= WeekMs
    {
      assert tf in Timeframes;
      assert tf in Timeframes[..14];
    }
  }

  /** nebula's parser and server's table give `tf` the same duration. */
  predicate Agrees(tf: Timeframe) {
    tf in TimeframeToMs && TimeframeMs(tf) == Some(TimeframeToMs[tf])
  }

  /**
   * The two processes agree: for every catalogue timeframe, nebula's parser
   * computes exactly server's table entry.
   */
  lemma {:induction false} ParserAgreesWithTable()
    ensures forall tf :: tf in Timeframes ==> Agrees(tf)
  {
    MinuteEntriesAgree();
    HourEntriesAgree();
    LongEntriesAgree();
    forall i | 0 <= i < |Timeframes|
      ensures Agrees(Timeframes[i])
    {
    }
  }

  /** The five one-unit durations; "1M" is thirty days. */
  lemma NamedDurations()
    ensures TimeframeMs("1m") == Some(60000) && TimeframeMs("1h") == Some(3600000)
    ensures TimeframeMs("1d") == Some(86400000) && TimeframeMs("1w") == Some(604800000)
    ensures TimeframeMs("1M") == Some(2592000000)
  {
    assert TimeframeMs("1m") == Some(MinuteMs) by { OneUnit('m'); }
    assert TimeframeMs("1h") == Some(HourMs) by { OneUnit('h'); }
    assert TimeframeMs("1d") == Some(DayMs) by { OneUnit('d'); }
    assert TimeframeMs("1w") == Some(WeekMs) by { OneUnit('w'); }
    assert TimeframeMs("1M") == Some(MonthMs) by { OneUnit('M'); }
  }

  /** "1" followed by a known unit is exactly one unit. */
  lemma OneUnit(u: char)
    requires UnitMs(u).Some?
    ensures TimeframeMs(['1', u]) == UnitMs(u)
  {
    assert ['1', u] == DecimalString(1) + [u];
    TimeframeMsOfCount(1, u);
  }

  lemma MinuteEntriesAgree()
    ensures Agrees("1m") && Agrees("3m") && Agrees("5m") && Agrees("15m") && Agrees("30m")
  {
    assert Agrees("1m") by { EntryAgrees("1m", 1, 'm'); }
    assert Agrees("3m") by { EntryAgrees("3m", 3, 'm'); }
    assert Agrees("5m") by { EntryAgrees("5m", 5, 'm'); }
    assert Agrees("15m") by { EntryAgrees("15m", 15, 'm'); }
    assert Agrees("30m") by { EntryAgrees("30m", 30, 'm'); }
  }

  lemma HourEntriesAgree()
    ensures Agrees("1h") && Agrees("2h") && Agrees("4h") && Agrees("6h") && Agrees("8h") && Agrees("12h")
  {
    assert Agrees("1h") by { EntryAgrees("1h", 1, 'h'); }
    assert Agrees("2h") by { EntryAgrees("2h", 2, 'h'); }
    assert Agrees("4h") by { EntryAgrees("4h", 4, 'h'); }
    assert Agrees("6h") by { EntryAgrees("6h", 6, 'h'); }
    assert Agrees("8h") by { EntryAgrees("8h", 8, 'h'); }
    assert Agrees("12h") by { EntryAgrees("12h", 12, 'h'); }
  }

  lemma LongEntriesAgree()
    ensures Agrees("1d") && Agrees("3d") && Agrees("1w") && Agrees("1M")
  {
    assert Agrees("1d") by { EntryAgrees("1d", 1, 'd'); }
    assert Agrees("3d") by { EntryAgrees("3d", 3, 'd'); }
    assert Agrees("1w") by { EntryAgrees("1w", 1, 'w'); }
    assert Agrees("1M") by { EntryAgrees("1M", 1, 'M'); }
  }

  /** One catalogue entry: `tf` spells `k` followed by the unit `u`, and the table says k × unit. */
  lemma EntryAgrees(tf: Timeframe, k: nat, u: char)
    requires 0 < k < 100 && UnitMs(u).Some?
    requires tf == DecimalString(k) + [u]
    requires tf in TimeframeToMs && TimeframeToMs[tf] == k * UnitMs(u).value
    ensures Agrees(tf)
  {
    TimeframeMsOfCount(k, u);
  }

  /** Every catalogue timeframe has a positive duration under nebula's parser. */
  lemma CatalogueDurationsPositive(tf: Timeframe)
    requires tf in Timeframes
    ensures TimeframeMs(tf).Some? && TimeframeMs(tf).value > 0
  {
    ParserAgreesWithTable();
    TableCoversCatalogue();
  }
}

=== FILE: endpoints.dfy ===
/**
 * Parameter validation of the REST process's `/db/...` handlers (server.js):
 * the symbol is upper-cased and checked first, then the timeframe is
 * lower-cased and checked, and a candle query is routed to the collection
 * `<symbol key>_<timeframe>`. Case folding is ASCII only.
 */
module Endpoints {
  import opened Wrappers
  import opened Catalog

  function UpperChar(c: char): char {
    if 'a' <= c <= 'z' then ((c as int) - 32) as char else c
  }

  function LowerChar(c: char): char {
    if 'A' <= c <= 'Z' then ((c as int) + 32) as char else c
  }

  /** `toUpperCase`, ASCII letters only. */
  function ToUpper(s: string): (r: string)
    ensures |r| == |s|
    ensures forall i :: 0 <= i < |s| ==> r[i] == UpperChar(s[i])
  {
    seq(|s|, i requires 0 <= i < |s| => UpperChar(s[i]))
  }

  /** `toLowerCase`, ASCII letters only. */
  function ToLower(s: string): (r: string)
    ensures |r| == |s|
    ensures forall i :: 0 <= i < |s| ==> r[i] == LowerChar(s[i])
  {
    seq(|s|, i requires 0 <= i < |s| => LowerChar(s[i]))
  }

  /** A lower-cased string holds no upper-case ASCII letter. */
  lemma LowerHasNoUpper(s: string)
    ensures forall i :: 0 <= i < |ToLower(s)| ==> !('A' <= ToLower(s)[i] <= 'Z')
  {
  }

  /** `String.prototype.replace` with a string pattern: only the first occurrence is replaced. */
  function ReplaceFirst(s: string, pattern: string, replacement: string): string
    requires |pattern| > 0
    decreases |s|
  {
    if |s| < |pattern| then s
    else if s[..|pattern|] == pattern then replacement + s[|pattern|..]
    else [s[0]] + ReplaceFirst(s[1..], pattern, replacement)
  }

  /** An HTTP error response: status code and the `error` message of its JSON body. */
  datatype HttpError = HttpError(status: int, message: string)

  const InvalidSymbol: HttpError := HttpError(400, "Invalid symbol")
  const InvalidTimeframe: HttpError := HttpError(400, "Invalid timeframe")

  /**
   * The symbol check of every `/db/...` handler: the upper-cased parameter
   * must be one of the instruments, otherwise 400 "Invalid symbol".
   */
  function ValidateSymbol(raw: string): (r: Result<Symbol, HttpError>)
    ensures r.Ok? <==> ToUpper(raw) in Symbols
    ensures r.Ok? ==> r.value == ToUpper(raw)
    ensures r.Err? ==> r.error == InvalidSymbol
  {
    var symbol := ToUpper(raw);
    if symbol !in Symbols then Err(InvalidSymbol) else Ok(symbol)
  }

  /** The symbol check accepts either spelling of an instrument. */
  lemma ValidateSymbolIgnoresCase()
    ensures ValidateSymbol("btcusdt") == Ok(Btc) && ValidateSymbol("EthUsdt") == Ok(Eth)
    ensures ValidateSymbol("BTC").Err?
  {
    assert ToUpper("btcusdt") == Btc;
    assert ToUpper("EthUsdt") == Eth;
    assert ToUpper("BTC") == "BTC";
  }

  /** The collection key of an instrument: lower-cased, with the first "usdt" removed. */
  function SymbolKey(symbol: Symbol): (r: string)
    ensures symbol in Symbols ==> r + "usdt" == ToLower(symbol)
  {
    InstrumentKeys();
    ReplaceFirst(ToLower(symbol), "usdt", "")
  }

  /** With no 'u' before it, the first "usdt" is the trailing one, and removing it leaves the prefix. */
  lemma {:induction false} DropTrailingUsdt(x: string)
    requires forall i :: 0 <= i < |x| ==> x[i] != 'u'
    ensures ReplaceFirst(x + "usdt", "usdt", "") == x
    decreases |x|
  {
    var s := x + "usdt";
    if |x| == 0 {
      assert s[..4] == "usdt";
    } else {
      assert s[..4][0] != "usdt"[0];
      assert s[1..] == x[1..] + "usdt";
      DropTrailingUsdt(x[1..]);
    }
  }

  /** Dropping "usdt" from the lower-cased instruments leaves "btc" and "eth". */
  lemma InstrumentKeys()
    ensures ReplaceFirst(ToLower(Btc), "usdt", "") == "btc"
    ensures ReplaceFirst(ToLower(Eth), "usdt", "") == "eth"
  {
    assert ToLower(Btc) == "btc" + "usdt";
    assert ToLower(Eth) == "eth" + "usdt";
    DropTrailingUsdt("btc");
    DropTrailingUsdt("eth");
  }

  lemma SymbolKeys()
    ensures SymbolKey(Btc) == "btc" && SymbolKey(Eth) == "eth"
  {
    InstrumentKeys();
  }

  /** A validated candle query: the instrument, the timeframe and the collection it reads. */
  datatype CandleRoute = CandleRoute(symbol: Symbol, timeframe: Timeframe, collection: string)

  /**
   * The validation of `/db/candles/:symbol/:timeframe` as written: symbol
   * first, then the LOWER-CASED timeframe must be in the catalogue. Since
   * lower-casing turns "1M" into "1m", the month timeframe is unreachable.
   */
  function RouteCandlesAsWritten(rawSymbol: string, rawTimeframe: string): (r: Result<CandleRoute, HttpError>)
    ensures ToUpper(rawSymbol) !in Symbols ==> r == Err(InvalidSymbol)
    ensures ToUpper(rawSymbol) in Symbols ==>
              (r.Ok? <==> ToLower(rawTimeframe) in Timeframes) &&
              (r.Err? ==> r.error == InvalidTimeframe)
    ensures r.Ok? ==>
              r.value.symbol == ToUpper(rawSymbol) && r.value.timeframe == ToLower(rawTimeframe) &&
              r.value.collection == SymbolKey(r.value.symbol) + "_" + r.value.timeframe
  {
    var symbol := ToUpper(rawSymbol);
    var timeframe := ToLower(rawTimeframe);
    if symbol !in Symbols then Err(InvalidSymbol)
    else if timeframe !in Timeframes then Err(InvalidTimeframe)
    else Ok(CandleRoute(symbol, timeframe, SymbolKey(symbol) + "_" + timeframe))
  }

  /** As written, asking for the month timeframe "1M" is served from the one-minute collection. */
  lemma MonthQueryServesMinutes()
    ensures RouteCandlesAsWritten("BTCUSDT", "1M") == Ok(CandleRoute(Btc, "1m", "btc_1m"))
  {
    assert ToUpper("BTCUSDT") == Btc;
    assert ToLower("1M") == "1m";
    assert "1m" in Timeframes;
    SymbolKeys();
    assert SymbolKey(Btc) + "_" + "1m" == "btc_1m";
  }

  /** As written, no request at all reaches the month timeframe. */
  lemma MonthUnreachableAsWritten(rawSymbol: string, rawTimeframe: string)
    ensures RouteCandlesAsWritten(rawSymbol, rawTimeframe).Ok? ==>
              RouteCandlesAsWritten(rawSymbol, rawTimeframe).value.timeframe != "1M"
  {
    var lowered := ToLower(rawTimeframe);
    LowerHasNoUpper(rawTimeframe);
    assert "1M"[1] == 'M';
    assert lowered != "1M";
  }

  /**
   * The timeframe a parameter names: an exact catalogue entry as given,
   * otherwise its lower-cased form if that is one. Exact matching keeps "1M"
   * (month) apart from "1m" (minute) while still accepting, say, "1H".
   */
  function ResolveTimeframe(raw: string): (r: Option<Timeframe>)
    ensures r.Some? ==> r.value in Timeframes
    ensures raw in Timeframes ==> r == Some(raw)
    ensures raw !in Timeframes ==> r == (if ToLower(raw) in Timeframes then Some(ToLower(raw)) else None)
  {
    if raw in Timeframes then Some(raw)
    else if ToLower(raw) in Timeframes then Some(ToLower(raw))
    else None
  }

  /**
   * The corrected validation: identical to the code except that the
   * timeframe is resolved by `ResolveTimeframe`.
   */
  function RouteCandles(rawSymbol: string, rawTimeframe: string): (r: Result<CandleRoute, HttpError>)
    ensures ToUpper(rawSymbol) !in Symbols ==> r == Err(InvalidSymbol)
    ensures ToUpper(rawSymbol) in Symbols ==>
              (r.Ok? <==> ResolveTimeframe(rawTimeframe).Some?) &&
              (r.Err? ==> r.error == InvalidTimeframe)
    ensures r.Ok? ==>
              r.value.symbol == ToUpper(rawSymbol) && r.value.timeframe in Timeframes &&
              r.value.collection == SymbolKey(r.value.symbol) + "_" + r.value.timeframe
  {
    var symbol := ToUpper(rawSymbol);
    if symbol !in Symbols then Err(InvalidSymbol)
    else
      match ResolveTimeframe(rawTimeframe)
      case None => Err(InvalidTimeframe)
      case Some(timeframe) => Ok(CandleRoute(symbol, timeframe, SymbolKey(symbol) + "_" + timeframe))
  }

  /** Corrected: every catalogue timeframe, the month included, is reachable under its own name. */
  lemma EveryTimeframeReachable(rawSymbol: string, tf: Timeframe)
    requires ToUpper(rawSymbol) in Symbols
    requires tf in Timeframes
    ensures RouteCandles(rawSymbol, tf).Ok? && RouteCandles(rawSymbol, tf).value.timeframe == tf
  {
  }

  /** Corrected: every request the code accepts is still accepted, with the same answer unless it names a catalogue entry exactly. */
  lemma CorrectionKeepsAcceptedRequests(rawSymbol: string, rawTimeframe: string)
    requires RouteCandlesAsWritten(rawSymbol, rawTimeframe).Ok?
    ensures RouteCandles(rawSymbol, rawTimeframe).Ok?
    ensures rawTimeframe !in Timeframes ==>
              RouteCandles(rawSymbol, rawTimeframe) == RouteCandlesAsWritten(rawSymbol, rawTimeframe)
  {
  }
}

=== FILE: ingest.dfy ===
/**
 * The message handlers of the ingestion process (nebula.js): a candle update
 * records the period open and then the close as the current price; a trade
 * update records its price. Each reports whether it triggered a
 * recomputation pass, which then reads the cache the handler left behind.
 * Storage writes and the randomly sampled extra delta pass are not modelled.
 */
module Ingest {
  import opened Wrappers
  import opened Catalog
  import opened PriceCache

  /** The fields of a candle (`k`) message the cache uses. */
  datatype Kline = Kline(openTime: int, open: Price, close: Price)

  /** The fields of a trade message the handler checks; `None` is an absent field. */
  datatype Trade = Trade(price: Price, quantity: Option<string>, time: Option<int>, tradeId: Option<int>)

  /** JavaScript truthiness of a string field: absent and empty are falsy. */
  predicate TruthyText(f: Option<string>) {
    f.Some? && |f.value| > 0
  }

  /** JavaScript truthiness of a numeric field: absent and zero are falsy. */
  predicate TruthyNumber(f: Option<int>) {
    f.Some? && f.value != 0
  }

  /** The guard of `handleTradeMessage`: price, quantity, time and trade id must all be truthy. */
  predicate WellFormedTrade(t: Trade) {
    !t.price.Missing? && TruthyText(t.quantity) && TruthyNumber(t.time) && TruthyNumber(t.tradeId)
  }

  /**
   * `handleCandleMessage`. `None` stands for a message that does not parse or
   * has no `k` field: it is dropped. Otherwise the open is recorded first,
   * then the close becomes the current price, so a pass it triggers already
   * sees both.
   */
  function HandleCandle(c: Cache, symbol: Symbol, timeframe: Timeframe, kline: Option<Kline>): (r: PriceWrite)
    ensures kline.None? ==> r == PriceWrite(c, false)
    ensures kline.Some? ==>
              CurrentPrice(r.cache, symbol) == kline.value.close &&
              r.cache.openPrices == UpdateOpenPrice(c, symbol, timeframe, kline.value.open, kline.value.openTime).openPrices &&
              (forall s :: s != symbol ==> CurrentPrice(r.cache, s) == CurrentPrice(c, s)) &&
              (r.recompute <==> Material(CurrentPrice(c, symbol), kline.value.close))
  {
    match kline
    case None => PriceWrite(c, false)
    case Some(k) =>
      var withOpen := UpdateOpenPrice(c, symbol, timeframe, k.open, k.openTime);
      UpdateCurrentPrice(withOpen, symbol, k.close)
  }

  /**
   * The first candle of a new period, with readable prices and a non-zero
   * open, leaves the cache so that the pass it may trigger computes that
   * candle's own move from open to close.
   */
  lemma NewCandleDeltaUsesItsOwnPrices(c: Cache, symbol: Symbol, timeframe: Timeframe, k: Kline)
    requires NewPeriod(c, Slot(symbol, timeframe), k.openTime)
    requires k.open.Quoted? && k.open.amount != 0.0 && k.close.Quoted?
    ensures Delta(HandleCandle(c, symbol, timeframe, Some(k)).cache, symbol, timeframe) ==
              Some((k.close.amount - k.open.amount) / k.open.amount * 100.0)
  {
  }

  /**
   * `handleTradeMessage`. `None` stands for a message that does not parse.
   * A message failing the guard changes nothing; otherwise its price becomes
   * the current price and the open prices are untouched.
   */
  function HandleTrade(c: Cache, symbol: Symbol, trade: Option<Trade>): (r: PriceWrite)
    ensures trade.None? || !WellFormedTrade(trade.value) ==> r == PriceWrite(c, false)
    ensures trade.Some? && WellFormedTrade(trade.value) ==>
              CurrentPrice(r.cache, symbol) == trade.value.price &&
              r.cache.openPrices == c.openPrices &&
              (forall s :: s != symbol ==> CurrentPrice(r.cache, s) == CurrentPrice(c, s)) &&
              (r.recompute <==> Material(CurrentPrice(c, symbol), trade.value.price))
  {
    match trade
    case None => PriceWrite(c, false)
    case Some(t) =>
      if !WellFormedTrade(t) then PriceWrite(c, false)
      else UpdateCurrentPrice(c, symbol, t.price)
  }

  /**
   * Last write wins across streams: whichever of a trade and a candle for the
   * same symbol is handled last decides the current price.
   */
  lemma LastHandledPriceWins(c: Cache, symbol: Symbol, timeframe: Timeframe, k: Kline, t: Trade)
    requires WellFormedTrade(t)
    ensures CurrentPrice(HandleTrade(HandleCandle(c, symbol, timeframe, Some(k)).cache, symbol, Some(t)).cache, symbol) == t.price
    ensures CurrentPrice(HandleCandle(HandleTrade(c, symbol, Some(t)).cache, symbol, timeframe, Some(k)).cache, symbol) == k.close
  {
  }

  /** A trade whose id is zero is dropped by the truthiness guard, even if everything else is present. */
  lemma ZeroTradeIdDropped(c: Cache, symbol: Symbol, price: Price, quantity: string, time: int)
    ensures HandleTrade(c, symbol, Some(Trade(price, Some(quantity), Some(time), Some(0)))) == PriceWrite(c, false)
  {
  }
}

=== FILE: price_cache.dfy ===
/**
 * The in-memory price cache of the ingestion process (nebula.js): the open
 * price of the currently active candle per (symbol, timeframe), and the latest
 * price per symbol, together with the two writers that feed them.
 */
module PriceCache {
  import opened Wrappers
  import opened Catalog

  /**
   * A price as the cache holds it. The source keeps the exchange's decimal
   * string; what matters to the code is whether that string is falsy (`null`,
   * `undefined` or empty: `Missing`), truthy but unreadable by `parseFloat`
   * (`Garbled`), or a number (`Quoted`).
   */
  datatype Price = Missing | Garbled | Quoted(amount: real)

  /** The open price of the candle that started at `openTime` (epoch milliseconds). */
  datatype OpenEntry = OpenEntry(open: Price, openTime: int)

  /** The key of one open-price entry. */
  datatype Slot = Slot(symbol: Symbol, timeframe: Timeframe)

  datatype Cache = Cache(openPrices: map<Slot, OpenEntry>, currentPrices: map<Symbol, Price>)

  /** The cache before any message has arrived. */

  /** `cache.currentPrices[symbol]`; an absent key reads as `undefined`. */
  function CurrentPrice(c: Cache, symbol: Symbol): Price {
    if symbol in c.currentPrices then c.currentPrices[symbol] else Missing
  }

  /** The materiality threshold below which a price move does not trigger recomputation. */
  const Epsilon: real := 0.01

  function Abs(x: real): (r: real)
    ensures r >= 0.0 && (r == x || r == -x)
  {
    if x < 0.0 then -x else x
  }

  /** `initializeSymbolCache`: the symbol's current price is reset to `null`; nothing else changes. */
  function InitializeSymbol(c: Cache, symbol: Symbol): (r: Cache)
    ensures CurrentPrice(r, symbol) == Missing
    ensures r.openPrices == c.openPrices
    ensures forall s :: s != symbol ==> CurrentPrice(r, s) == CurrentPrice(c, s)
  {
    c.(currentPrices := c.currentPrices[symbol := Missing])
  }

  /** True when a candle with this `openTime` starts a period the cache has not seen for the slot. */
  predicate NewPeriod(c: Cache, slot: Slot, openTime: int) {
    slot !in c.openPrices || c.openPrices[slot].openTime != openTime
  }

  /**
   * `updateOpenPriceCache`: the entry is replaced wholesale when there is none
   * or its `openTime` differs (older as well as newer); the same `openTime`
   * leaves the cache untouched even if `open` differs. No other entry and no
   * current price changes.
   */
  function UpdateOpenPrice(c: Cache, symbol: Symbol, timeframe: Timeframe, open: Price, openTime: int): (r: Cache)
    ensures r.currentPrices == c.currentPrices
    ensures Slot(symbol, timeframe) in r.openPrices
    ensures r.openPrices[Slot(symbol, timeframe)].openTime == openTime
    ensures NewPeriod(c, Slot(symbol, timeframe), openTime) ==>
              r.openPrices[Slot(symbol, timeframe)] == OpenEntry(open, openTime)
    ensures !NewPeriod(c, Slot(symbol, timeframe), openTime) ==> r == c
    ensures forall s :: s != Slot(symbol, timeframe) ==>
              (s in r.openPrices <==> s in c.openPrices) &&
              (s in c.openPrices ==> r.openPrices[s] == c.openPrices[s])
  {
    var slot := Slot(symbol, timeframe);
    if NewPeriod(c, slot, openTime) then c.(openPrices := c.openPrices[slot := OpenEntry(open, openTime)])
    else c
  }

  /** The first open observed for a period is authoritative: a repeat with another `open` is a no-op. */
  lemma OpenPriceIdempotent(c: Cache, symbol: Symbol, timeframe: Timeframe, open1: Price, open2: Price, openTime: int)
    ensures var once := UpdateOpenPrice(c, symbol, timeframe, open1, openTime);
            UpdateOpenPrice(once, symbol, timeframe, open2, openTime) == once
  {
  }

  /** A new `openTime` always installs the supplied open, whatever the cache held before. */
  lemma NewPeriodReplaces(c: Cache, symbol: Symbol, timeframe: Timeframe, open: Price, openTime: int)
    requires Slot(symbol, timeframe) in c.openPrices
    requires c.openPrices[Slot(symbol, timeframe)].openTime != openTime
    ensures UpdateOpenPrice(c, symbol, timeframe, open, openTime).openPrices[Slot(symbol, timeframe)] == OpenEntry(open, openTime)
  {
  }

  /**
   * Whether replacing `prior` by `next` is a material move: there was no old
   * price, or both parse and differ by more than `Epsilon`. A NaN on either
   * side makes the comparison false, as in JavaScript.
   */
  predicate Material(prior: Price, next: Price) {
    prior.Missing? || (prior.Quoted? && next.Quoted? && Abs(next.amount - prior.amount) > Epsilon)
  }

  /** The new cache after a price write, and whether a recomputation pass is triggered. */
  datatype PriceWrite = PriceWrite(cache: Cache, recompute: bool)

  /**
   * `updateCurrentPrice`: the write is unconditional (last write wins); the
   * recomputation is triggered exactly when the move is material.
   */
  function UpdateCurrentPrice(c: Cache, symbol: Symbol, price: Price): (r: PriceWrite)
    ensures CurrentPrice(r.cache, symbol) == price
    ensures r.cache.openPrices == c.openPrices
    ensures forall s :: s != symbol ==> CurrentPrice(r.cache, s) == CurrentPrice(c, s)
    ensures r.recompute <==>
              CurrentPrice(c, symbol).Missing? ||
              (CurrentPrice(c, symbol).Quoted? && price.Quoted? &&
               (price.amount > CurrentPrice(c, symbol).amount + Epsilon ||
                price.amount < CurrentPrice(c, symbol).amount - Epsilon))
  {
    var prior := CurrentPrice(c, symbol);
    PriceWrite(c.(currentPrices := c.currentPrices[symbol := price]), Material(prior, price))
  }

  /** Writing the same present price twice: the second write changes nothing and triggers nothing. */
  lemma RepeatedPriceIsQuiet(c: Cache, symbol: Symbol, price: Price)
    requires !price.Missing?
    ensures var first := UpdateCurrentPrice(c, symbol, price);
            var second := UpdateCurrentPrice(first.cache, symbol, price);
            second.cache == first.cache && !second.recompute
  {
    var first := UpdateCurrentPrice(c, symbol, price);
    assert first.cache.currentPrices[symbol := price] == first.cache.currentPrices;
  }

  /**
   * `calculateDelta`: the percentage move of the current price from the
   * slot's open. It is unavailable when the entry is absent, either price is
   * missing or unreadable, or the open is zero.
   */
  function Delta(c: Cache, symbol: Symbol, timeframe: Timeframe): (r: Option<real>)
    ensures r.Some? <==>
              Slot(symbol, timeframe) in c.openPrices &&
              c.openPrices[Slot(symbol, timeframe)].open.Quoted? &&
              c.openPrices[Slot(symbol, timeframe)].open.amount != 0.0 &&
              CurrentPrice(c, symbol).Quoted?
    ensures r.Some? ==>
              var open := c.openPrices[Slot(symbol, timeframe)].open.amount;
              r.value * open == (CurrentPrice(c, symbol).amount - open) * 100.0
  {
    var slot := Slot(symbol, timeframe);
    if slot !in c.openPrices || c.openPrices[slot].open.Missing? || CurrentPrice(c, symbol).Missing? then None
    else
      var open := c.openPrices[slot].open;
      var current := CurrentPrice(c, symbol);
      if open.Garbled? || current.Garbled? || open.amount == 0.0 then None
      else Some((current.amount - open.amount) / open.amount * 100.0)
  }

  /** A delta can be undone: the current price is the open scaled by (1 + delta / 100). */
  lemma DeltaRecoversCurrent(c: Cache, symbol: Symbol, timeframe: Timeframe)
    requires Delta(c, symbol, timeframe).Some?
    ensures CurrentPrice(c, symbol).amount ==
              c.openPrices[Slot(symbol, timeframe)].open.amount * (1.0 + Delta(c, symbol, timeframe).value / 100.0)
  {
  }

  /** With a positive open, the delta is zero, positive or negative exactly as the price is flat, up or down. */
  lemma DeltaSign(c: Cache, symbol: Symbol, timeframe: Timeframe)
    requires Delta(c, symbol, timeframe).Some?
    requires c.openPrices[Slot(symbol, timeframe)].open.amount > 0.0
    ensures var d := Delta(c, symbol, timeframe).value;
            var open := c.openPrices[Slot(symbol, timeframe)].open.amount;
            (d == 0.0 <==> CurrentPrice(c, symbol).amount == open) &&
            (d > 0.0 <==> CurrentPrice(c, symbol).amount > open)
  {
  }
}

=== FILE: schedule.dfy ===
/**
 * The candle scheduling arithmetic of the REST process (server.js): the next
 * candle boundary of a timeframe, the delay before the scheduled fetch, and
 * which candle of an exchange response `fetchCandle` keeps. The clock is a
 * parameter; the HTTP request is not modelled, its response comes in as a
 * value.
 */
module Schedule {
  import opened Wrappers
  import opened Catalog

  /** JavaScript's `%`: the remainder takes the sign of the dividend (truncating division). */
  function JsRem(a: int, b: int): (r: int)
    requires b > 0
    ensures a >= 0 ==> r == a % b
    ensures a >= 0 ==> 0 <= r < b
    ensures a < 0 ==> -b < r <= 0
    ensures (a - r) % b == 0
  {
    if a >= 0 then
      MultipleHasNoRemainder(a / b, b);
      a % b
    else
      var q := (-a) / b;
      assert -a == b * q + (-a) % b;
      assert a + (-a) % b == (-q) * b;
      MultipleHasNoRemainder(-q, b);
      -((-a) % b)
  }

  /** For `now >= 0`, rounding down to a multiple of `m` and adding `m` lands on the next grid point. */
  lemma NextGridPoint(now: int, m: int)
    requires now >= 0 && m > 0
    ensures (now - now % m + m) % m == 0
    ensures now < now - now % m + m <= now + m
  {
    var q := now / m;
    assert now - now % m + m == (q + 1) * m;
    MultipleHasNoRemainder(q + 1, m);
  }

  /**
   * `getNextCandleTime`: `None` for a timeframe missing from `timeframeToMs`;
   * otherwise `now` rounded down to the timeframe's grid, plus one duration.
   */
  function NextCandleTime(tf: Timeframe, now: int): (r: Option<int>)
    ensures r.None? <==> tf !in TimeframeToMs
    ensures r.Some? && now >= 0 ==>
              TimeframeToMs[tf] > 0 &&
              r.value % TimeframeToMs[tf] == 0 && now < r.value <= now + TimeframeToMs[tf]
  {
    if tf !in TimeframeToMs then None
    else
      var ms := TimeframeToMs[tf];
      TableCoversCatalogue();
      if now >= 0 then NextGridPoint(now, ms); Some(now - JsRem(now, ms) + ms)
      else Some(now - JsRem(now, ms) + ms)
  }

  /**
   * Every instant of a candle period has the same next boundary: the one
   * that closes the period.
   */
  lemma SameBoundaryWithinPeriod(tf: Timeframe, now: int, t: int)
    requires tf in TimeframeToMs
    requires now >= 0
    requires NextCandleTime(tf, now).value - TimeframeToMs[tf] <= t < NextCandleTime(tf, now).value
    ensures NextCandleTime(tf, t) == NextCandleTime(tf, now)
  {
    SameGridCell(now, t, TimeframeToMs[tf]);
  }

  /** Two non-negative instants in the same cell of the grid of step `m` round down to the same point. */
  lemma SameGridCell(now: int, t: int, m: int)
    requires now >= 0 && m > 0
    requires now - now % m <= t < now - now % m + m
    ensures t - t % m == now - now % m
  {
    var b := now - now % m;
    assert now == m * (now / m) + now % m;
    assert b == (now / m) * m;
    UniqueRemainder(t, m, now / m, t - b);
  }

  /** If `t = q·m + r` with `0 <= r < m`, then `r` is `t % m`. */
  lemma UniqueRemainder(t: int, m: int, q: int, r: int)
    requires m > 0 && 0 <= r < m && t == q * m + r
    ensures t % m == r
  {
    var k := q - t / m;
    assert t == m * (t / m) + t % m;
    assert t % m - r == m * k;
  }

  /** Extra wait after the boundary so that the candle has closed. */
  const CloseGraceMs: int := 5000

  /**
   * The delay `scheduleTimeframeFetch` sets. The source reads the clock twice:
   * `boundaryNow` inside `getNextCandleTime`, then `delayNow` for the delay.
   */
  function FetchDelay(tf: Timeframe, boundaryNow: int, delayNow: int): (r: Option<int>)
    ensures r.None? <==> tf !in TimeframeToMs
    ensures r.Some? && 0 <= boundaryNow <= delayNow ==>
              r.value <= TimeframeToMs[tf] + CloseGraceMs &&
              r.value > CloseGraceMs - (delayNow - boundaryNow)
    ensures r.Some? && 0 <= boundaryNow == delayNow ==>
              CloseGraceMs < r.value <= TimeframeToMs[tf] + CloseGraceMs
  {
    match NextCandleTime(tf, boundaryNow)
    case None => None
    case Some(next) => Some(next - delayNow + CloseGraceMs)
  }

  /** The fetch fires exactly the grace period after the boundary that follows the first clock reading. */
  lemma FetchFiresAfterBoundary(tf: Timeframe, boundaryNow: int, delayNow: int)
    requires tf in TimeframeToMs && boundaryNow >= 0
    ensures delayNow + FetchDelay(tf, boundaryNow, delayNow).value ==
              NextCandleTime(tf, boundaryNow).value + CloseGraceMs
  {
  }

  /** The longest delay a Node timer accepts: 2^31 − 1 ms, about 24.8 days. */
  const MaxTimerMs: int := 0x7FFF_FFFF

  /**
   * The delay Node's `setTimeout` actually waits: a requested delay above
   * `MaxTimerMs`, or below 1, is replaced by 1.
   */
  function TimerDelay(d: int): (r: int)
    ensures 1 <= r <= MaxTimerMs
    ensures r == d <==> 1 <= d <= MaxTimerMs
    ensures r != d ==> r == 1
  {
    if 1 <= d <= MaxTimerMs then d else 1
  }

  /**
   * As written: the instant at which the fetch scheduled by
   * `scheduleTimeframeFetch` fires, the fetch delay being handed to one
   * `setTimeout` call.
   */
  function FireTimeAsWritten(tf: Timeframe, boundaryNow: int, delayNow: int): (r: Option<int>)
    ensures r.None? <==> tf !in TimeframeToMs
    ensures r.Some? ==> delayNow < r.value <= delayNow + MaxTimerMs
    ensures r.Some? && boundaryNow >= 0 && FetchDelay(tf, boundaryNow, delayNow).value <= MaxTimerMs &&
            delayNow < NextCandleTime(tf, boundaryNow).value + CloseGraceMs ==>
              r.value == NextCandleTime(tf, boundaryNow).value + CloseGraceMs
  {
    match FetchDelay(tf, boundaryNow, delayNow)
    case None => None
    case Some(d) => Some(delayNow + TimerDelay(d))
  }

  /**
   * As written, the month's fetch is due more than `MaxTimerMs` ahead during
   * the first ≈5.1 days of each 30-day period, and then fires after 1 ms
   * instead: at the epoch the boundary is thirty days away, yet the fetch
   * runs at once.
   */
  lemma MonthFetchFiresEarlyAsWritten()
    ensures NextCandleTime("1M", 0) == Some(MonthMs)
    ensures FireTimeAsWritten("1M", 0, 0) == Some(1)
    ensures MonthMs + CloseGraceMs > MaxTimerMs
  {
    assert TimeframeToMs["1M"] == MonthMs;
    assert JsRem(0, MonthMs) == 0;
  }

  /**
   * As written, whenever the month's boundary lies more than `MaxTimerMs`
   * (less the grace period) ahead, the fetch fires 1 ms later and, since it
   * reschedules itself, refires 1 ms after each fetch returns.
   */
  lemma MonthFetchSpinsAsWritten(now: int)
    requires now >= 0
    requires NextCandleTime("1M", now).value - now + CloseGraceMs > MaxTimerMs
    ensures FireTimeAsWritten("1M", now, now) == Some(now + 1)
  {
  }

  /**
   * As written, within the first month period the fetch fires after 1 ms
   * exactly during the first 444521353 ms (≈5.1 days), and on time, 5000 ms
   * after the boundary, for the rest of the period.
   */
  lemma MonthSpinWindowAsWritten(now: int)
    requires 0 <= now < MonthMs
    ensures NextCandleTime("1M", now) == Some(MonthMs)
    ensures MonthMs + CloseGraceMs - MaxTimerMs == 444521353
    ensures FireTimeAsWritten("1M", now, now) ==
              if now < MonthMs + CloseGraceMs - MaxTimerMs then Some(now + 1) else Some(MonthMs + CloseGraceMs)
  {
    assert TimeframeToMs["1M"] == MonthMs;
    UniqueRemainder(now, MonthMs, 0, now);
  }

  /**
   * Corrected timer: a wait from `now` to `target` longer than Node allows is
   * split into timers of at most `MaxTimerMs`, each re-armed when the previous
   * one fires. The result is the instant the last timer fires.
   */
  function ChunkedFireTime(now: int, target: int): (r: int)
    requires now < target
    ensures r == target
    decreases target - now
  {
    if target - now <= MaxTimerMs then now + TimerDelay(target - now)
    else ChunkedFireTime(now + TimerDelay(MaxTimerMs), target)
  }

  /**
   * Corrected `scheduleTimeframeFetch`: the fetch is due the grace period
   * after the next boundary and waits for it in chunks; a due time already
   * past fires after 1 ms, as Node does for a non-positive delay.
   */
  function FireTime(tf: Timeframe, boundaryNow: int, delayNow: int): (r: Option<int>)
    ensures r.None? <==> tf !in TimeframeToMs
    ensures r.Some? && delayNow < NextCandleTime(tf, boundaryNow).value + CloseGraceMs ==>
              r.value == NextCandleTime(tf, boundaryNow).value + CloseGraceMs
    ensures r.Some? && 0 <= boundaryNow == delayNow ==>
              r.value == NextCandleTime(tf, boundaryNow).value + CloseGraceMs
  {
    match NextCandleTime(tf, boundaryNow)
    case None => None
    case Some(next) =>
      var due := next + CloseGraceMs;
      if delayNow < due then Some(ChunkedFireTime(delayNow, due)) else Some(delayNow + TimerDelay(due - delayNow))
  }

  /**
   * The correction changes nothing for the fourteen timeframes shorter than a
   * month: their fetch delay always fits in one timer.
   */
  lemma CorrectionKeepsShortTimeframes(tf: Timeframe, now: int)
    requires tf in TimeframeToMs && tf != "1M" && now >= 0
    ensures FireTimeAsWritten(tf, now, now) == FireTime(tf, now, now)
  {
    AllButMonthAtMostAWeek();
  }

  /** The `limit` parameter of the klines request: two when a completed candle is wanted, else one. */
  function RequestLimit(getCompleted: bool): (n: nat)
    ensures 1 <= n <= 2
    ensures n == 2 <==> getCompleted
  {
    if getCompleted then 2 else 1
  }

  /** The candle `fetchCandle` keeps, and whether it marks it completed. */
  datatype Selected<C> = Selected(candle: C, completed: bool)

  /**
   * `fetchCandle`'s choice. `None` stands for a failed request or a missing
   * body, and yields null, as does an empty response. Otherwise the
   * second-to-last candle is kept, and marked completed, exactly when a
   * completed candle was asked for and at least two came back; else the last.
   */
  function SelectCandle<C>(getCompleted: bool, data: Option<seq<C>>): (r: Option<Selected<C>>)
    ensures r.None? <==> data.None? || |data.value| == 0
    ensures r.Some? ==> (r.value.completed <==> getCompleted && |data.value| >= 2)
    ensures r.Some? && r.value.completed ==> r.value.candle == data.value[|data.value| - 2]
    ensures r.Some? && !r.value.completed ==> r.value.candle == data.value[|data.value| - 1]
  {
    match data
    case None => None
    case Some(candles) =>
      if |candles| == 0 then None
      else
        var index := if getCompleted && |candles| >= 2 then 1 else 0;
        Some(Selected(candles[|candles| - 1 - index], index == 1))
  }

  /**
   * A full page (as many candles as the request limit) yields its first
   * candle: the completed one when two were asked for, the current one
   * otherwise.
   */
  lemma FullPageYieldsFirst<C>(getCompleted: bool, candles: seq<C>)
    requires |candles| == RequestLimit(getCompleted)
    ensures SelectCandle(getCompleted, Some(candles)) == Some(Selected(candles[0], getCompleted))
  {
  }
}

=== FILE: wrappers.dfy ===
/** Failure-carrying wrappers shared by every module of the model. */
module Wrappers {

  /** A value that may be absent: the model's rendering of JavaScript's `null`/`undefined`. */
  datatype Option<+T> = None | Some(value: T) {

    /** The wrapped value, or `default` when there is none. */
    function GetOr(default: T): T {
      match this
      case Some(v) => v
      case None => default
    }
  }

  /** The outcome of an operation that either produces a value or fails with an error. */
  datatype Result<+T, +E> = Ok(value: T) | Err(error: E)
}
